=== FILE: README.md ===
# Telegram-to-WordPress news relay, modelled in Dafny

The relay is a Next.js webhook, `app/api/telegram/route.js`. It takes a raw Bengali news
message from one authorised Telegram chat and asks a language model to rewrite it as a
structured SEO article. Gemini is asked first, then OpenRouter, and a deterministic
fallback article is used when neither gives an acceptable rewrite. The relay then picks a
WordPress category with a keyword classifier, files the article as a draft post, and
reports back to the chat.

The project models that core as pure functions over JavaScript strings. Strings are
`seq<CodeUnit>`, sequences of UTF-16 code units.

- `jstext.dfy` (`JsText`) covers `replace(/\s+/g, " ").trim()` with the exact ECMAScript
  whitespace set, plus prefix, substring and `slice` helpers.
- `numbers.dfy` (`NumberText`) covers `String(t)` for the integral time values `Date.now()`
  can return.
- `records.dfy` (`Records`) holds the rewritten object. Its fields may be strings,
  `undefined` or something else, and `meta_keywords` may or may not be an array.
- `fallback.dfy` (`Fallback`) is `fallbackSEO`.
- `language.dfy` (`Language`) is `isEnglish`.
- `extract.dfy` (`JsonExtract`) covers `extractJSON`: the span the greedy `/\{[\s\S]*\}/`
  selects, and the "JSON parse failed" error.
- `providers.dfy` (`Providers`) covers the tail of both rewrite adapters and
  `generateSEO`'s priority chain.
- `category.dfy` (`Category`) covers `detectCategory`'s ordered keyword rules and the
  `data[0]?.id || 1` id choice.
- `handler.dfy` (`Handler`) is `POST`. It is a function from the update and an
  environment to the sequence of remote calls made and the response. The environment
  holds the configured chat id, the clock value, and how each remote call turns out.

Behaviour of the relay worth noting:

- There is no duplicate check before publishing.
- There is no path that publishes directly: every post has status `draft`.
- The webhook response is not always a success. The `sendMessage` calls are awaited
  without a guard. If the request for text, or the error report inside the `catch`,
  throws, the error escapes `POST`. The model calls this `Crashed`.
- The fallback supplies four fixed keywords.
- The fallback's `meta_title` is cut from the first sentence, not from the defaulted
  title, so it can be empty while `title` is not.
- The success report never depends on WordPress's answer. `createWPPost` awaits the
  request but never reads its response, so a rejected post (a 400, 401 or 500 status)
  is still reported as saved. In the model, a completed post step means that the request
  completed, not that a post exists.
- A string is compared code unit by code unit, with no Unicode normalisation.
  For example, the য় of the disclaimer, of the fourth keyword and of the success message
  is the single unit U+09DF, as in the source.

## Model

| member | source | states |
|---|---|---|
| JsText.Normalize | app/api/telegram/route.js:157 | The cleaned text keeps every non-whitespace unit in order. Its only whitespace is single plain spaces, and it neither starts nor ends with one. |
| JsText.NormalizeJoinsWords | app/api/telegram/route.js:157 | The cleaned text is exactly the words of the input, its maximal runs of non-whitespace, joined by single spaces. |
| JsText.NormalizeIdempotent | app/api/telegram/route.js:157 | Cleaning already-cleaned text changes nothing. |
| JsText.NormalizeBlank | app/api/telegram/route.js:157 | The cleaned text is empty exactly when the input is all whitespace. |
| JsText.Take | app/api/telegram/route.js:165-174 | `slice(0, n)` gives a prefix of length min(n, length). |
| NumberText.NumberToString | app/api/telegram/route.js:173 | `String(Date.now())` starts with a minus sign exactly when the time is negative. Its digits read back as the time's magnitude. They have no leading zero, and zero prints as "0". |
| NumberText.DecimalRoundTrip | app/api/telegram/route.js:173 | Reading the decimal digits of n gives back n. |
| Fallback.FirstSentence | app/api/telegram/route.js:158 | `split("।")[0]` is the prefix up to the first danda, or the whole text. It contains no danda. |
| Fallback.FallbackSEO | app/api/telegram/route.js:156-176 | Title: the first sentence of the cleaned text, or the default title when that sentence is empty. Content: the cleaned text, which is the words joined by single spaces, followed by the disclaimer exactly as written in the source. meta_title: at most 60 units of the first sentence. meta_description and excerpt: the first 160 and 120 units of the cleaned text. Keywords: the four defaults. Slug: "news-" followed by the timestamp. |
| Fallback.FallbackSlugsDiffer | app/api/telegram/route.js:173 | Fallback articles made at different instants have different slugs. |
| Fallback.FallbackIgnoresSpacing | app/api/telegram/route.js:157-175 | The fallback depends only on the cleaned text. |
| Fallback.FallbackOfBlank | app/api/telegram/route.js:156-176 | Whitespace-only input still gives a complete article: the default title, the bare disclaimer as content, empty meta title, description and excerpt, and the default keywords. |
| Language.Strip | app/api/telegram/route.js:151 | No digit, whitespace, `-`, `_`, `,` or `.` is left. A single unit is deleted exactly when the class matches it. |
| Language.StripAppend | app/api/telegram/route.js:151 | The deletion works unit by unit: stripping a concatenation strips each part. With the one-unit case, every unit outside the class survives, in order. |
| Language.IsEnglishIff | app/api/telegram/route.js:150-152 | A text counts as English exactly when each unit is either deleted by the cleaning class or ASCII. |
| Language.BlankIsEnglish | app/api/telegram/route.js:150-152 | Empty and whitespace-only text counts as English, so such a rewrite is rejected. |
| Language.WitnessNotEnglish | app/api/telegram/route.js:150-152 | One kept non-ASCII unit anywhere makes the text non-English. |
| JsonExtract.FirstIndex | app/api/telegram/route.js:145 | The first occurrence of a unit, or its absence. |
| JsonExtract.LastIndex | app/api/telegram/route.js:145 | The last occurrence of a unit, or its absence. |
| JsonExtract.MatchSpan | app/api/telegram/route.js:145 | The pattern matches exactly when some `{` has a `}` after it. The match runs from the first `{` to the last `}` and contains every such pair. |
| JsonExtract.ExtractJSON | app/api/telegram/route.js:144-148 | Without a brace pair the result is the "JSON parse failed" error. Otherwise it is `JSON.parse` of the text from the first `{` to the last `}`. |
| Providers.RewriteOutcome | app/api/telegram/route.js:114-116 | A reply with no candidates yields null. A failed request and a non-string completion throw. A string completion yields an object exactly when `extractJSON` parses one from it, and then yields that object. Without a brace pair it throws. |
| Providers.FirstAccepted | app/api/telegram/route.js:53-62 | The first outcome that is an object whose string content is not English. All earlier outcomes are unacceptable. |
| Providers.GenerateSEO | app/api/telegram/route.js:51-66 | An acceptable Gemini object wins and OpenRouter is never called. Otherwise an acceptable OpenRouter object wins. Otherwise the result is exactly the fallback article. Gemini is always called first. |
| Providers.GeneratedContentIsBengali | app/api/telegram/route.js:51-66 | Whatever the providers do, the article's content is a non-English string. |
| Providers.DisclaimerMakesBengali | app/api/telegram/route.js:162-164 | Any text followed by the fallback disclaimer is non-English. |
| Category.FirstMatch | app/api/telegram/route.js:193-197 | The index of the first rule with a keyword in the text, with no earlier rule matching. None exactly when no rule matches. |
| Category.CategoryLabel | app/api/telegram/route.js:180-198 | The default label exactly when no rule matches. Otherwise the name of the first matching rule in declaration order. |
| Category.CategoryId | app/api/telegram/route.js:208 | A truthy first search hit's id is kept. A missing or zero id becomes 1. |
| JsText.Join | app/api/telegram/route.js:232 | `join(", ")` of no keywords is empty. Otherwise the result starts with the first keyword, and its length is the keywords' total length plus one separator per gap. |
| JsText.JoinSnoc | app/api/telegram/route.js:232 | Joining one more keyword appends exactly the separator and that keyword, so every keyword is kept, in order. |
| Handler.DraftRequest | app/api/telegram/route.js:222-234 | The body is a draft filed under exactly the one chosen category. Title, content, slug, excerpt, meta title and meta description are sent as the object holds them. The focus keyword is the keywords joined with ", "; with `Join`'s contract and `JoinSnoc`, every keyword is kept in order, the first one in front. |
| Handler.ClassifiedName | app/api/telegram/route.js:28 | The classifier sees the title and the content joined by a space. It falls back to the default label exactly when no rule matches that text, and otherwise gives the name of the first rule that matches it. A keyword in the title alone, or in the content alone, is enough to leave the default. |
| Category.PoliticsBeforeCrime | app/api/telegram/route.js:182-183 | Any text with a politics keyword is filed under politics, whatever other rules, crime among them, it also matches. |
| Category.MinisterAndPoliceIsPolitics | app/api/telegram/route.js:182-183 | A text naming a minister and the police matches the crime rule too, and is filed under politics. |
| Category.EmptyTextIsDefault | app/api/telegram/route.js:198 | Empty text gets the default label. |
| Category.PoliceWithoutPoliticsIsCrime | app/api/telegram/route.js:183 | Text that mentions the police but no politics keyword is filed under crime. |
| Handler.Publish | app/api/telegram/route.js:28-30 | The category search comes first. A failed search, or keywords that are not an array, end the block with that error before any post. Once both complete, the post request is made whatever its outcome, and a failed post ends the block after that request. The post is a draft carrying the object, its joined keywords and the id the category search chose (the first hit's id, or 1). Success is reported, as the last call, exactly when every earlier step completed. The block throws the first failure, or else the report's own failure. |
| Handler.Conclude | app/api/telegram/route.js:31-36 | Without an error the calls stand and the webhook is acknowledged. An error adds one message, "❌ ERROR: " followed by its text. The handler fails exactly when that send throws: the request's first send, or the second one if the success report already went out. |
| Handler.Handle | app/api/telegram/route.js:11-37 | Updates without a message, or from another chat, make no remote call. A text-less message gets only the request for text, and the handler fails exactly when that send throws. Otherwise Gemini is called first. Posts are drafts only, and the success message always follows the post creation. When Telegram accepts the first message, exactly one reply is sent, last, and the webhook is acknowledged. |
| Handler.HandleReply | app/api/telegram/route.js:26-36 | The post request is made exactly when the category search and the keyword join complete. A message with text gets the success report exactly when the create-post request completed as well. A failed search, keyword join or post is reported as "❌ ERROR: " plus its message, sent last. If Telegram rejects the success report, its error is reported in a second message. The handler fails exactly when the send that reports the outcome throws. |
| Handler.HandleSearchesClassified | app/api/telegram/route.js:27-28 | A message with text first calls exactly the providers `generateSEO` called, in order. The next call searches the category the classifier names for the resulting object's title and content. |
| Handler.ProvidersDownStillDrafts | app/api/telegram/route.js:26-36 | When neither provider gives an acceptable rewrite and every remote call succeeds, the handler calls both providers, searches the classifier's category, and files the fallback article as a draft. It then reports success and acknowledges. |

## Left out

- Network I/O (`fetch`, response status codes, `res.json()`) is left out. Each provider's
  exchange is reduced to a `Completion`. Each WordPress and Telegram call is reduced to an
  outcome held in the environment.
- `JSON.parse` is the `parse` parameter of `JsonExtract.ExtractJSON`; JSON grammar is not
  modelled.
- `buildPrompt` is not modelled, and neither are the request bodies sent to Gemini and
  OpenRouter: they only shape the remote call.
- `process.env` is left out. Only `ALLOWED_CHAT_ID` matters to the control flow, and it
  is a field of the environment. The API keys, the model name and the site URL are not
  modelled.
- `getAuth` and its `Buffer` base64 encoding are not modelled.
- `console.error` is left out.
- `NextResponse` is reduced to `Acknowledged`.
- NumberText.NumberToString: `String` is modelled only for integral ECMAScript time
  values, which are the only numbers `Date.now()` returns. Exponent notation is never
  needed for them.
- `await req.json()` failing, and a message without `chat`, are not modelled. Both make
  `POST` reject before any of the modelled logic runs. The chat id is taken already
  converted by `String(chatId)`.
- A non-string `title` or `content` is joined into the classifier's input as `String`
  would show it. The model keeps the shown text as an opaque field and does not derive it.
- Characters outside the Basic Multilingual Plane never appear in the source's literals.
  `Lit` maps them to U+FFFD, so it is only exact for BMP text.
- The whitespace set is the ECMAScript one for Unicode 15. Later Unicode versions could
  add space separators.
- Concurrency between requests is not modelled. The code keeps no shared
  state between them.

=== FILE: category.dfy ===
/** The keyword classifier of `detectCategory`: an ordered list of (label, keywords) rules,
    the first rule with a keyword occurring in the text wins. */
module Category {
  import opened JsText
  import opened Results

  datatype CategoryRule = CategoryRule(name: JsString, keywords: seq<JsString>)

  /** `words.some(w => text.includes(w))`. */
  predicate Matches(rule: CategoryRule, text: JsString) {
    exists k | 0 <= k < |rule.keywords| :: Contains(text, rule.keywords[k])
  }

  /** The rules in declaration order, which is also `Object.entries` order (none of the
      labels is an integer-like key). */
  const RULES: seq<CategoryRule> := [
      CategoryRule(Lit("রাজনীতি"),
        [Lit("বিএনপি"), Lit("আওয়ামী"), Lit("নির্বাচন"), Lit("মন্ত্রী"), Lit("সংসদ"), Lit("রাজনীতি")]),
      CategoryRule(Lit("অপরাধ"),
        [Lit("খুন"), Lit("মামলা"), Lit("গ্রেপ্তার"), Lit("পুলিশ"), Lit("র\U{200D}্যাব")]),
      CategoryRule(Lit("খেলা"),
        [Lit("খেলা"), Lit("ম্যাচ"), Lit("ক্রিকেট"), Lit("ফুটবল")]),
      CategoryRule(Lit("চাকরি"),
        [Lit("নিয়োগ"), Lit("চাকরি"), Lit("পরীক্ষা")]),
      CategoryRule(Lit("বিনোদন"),
        [Lit("চলচ্চিত্র"), Lit("নাটক"), Lit("অভিনেতা"), Lit("গান")]),
      CategoryRule(Lit("বাণিজ্য"),
        [Lit("বাজার"), Lit("দাম"), Lit("ব্যবসা"), Lit("অর্থনীতি")]),
      CategoryRule(Lit("জীবনযাপন"),
        [Lit("স্বাস্থ্য"), Lit("শিক্ষা"), Lit("জীবনযাপন")]),
      CategoryRule(Lit("বিশ্ব"),
        [Lit("আন্তর্জাতিক"), Lit("বিদেশ"), Lit("বিশ্ব")]),
      CategoryRule(Lit("মতামত"),
        [Lit("মতামত"), Lit("বিশ্লেষণ")])
    ]

  /** The label asked for when no rule matches. */
  const DEFAULT_LABEL: JsString := Lit("বাংলাদেশ")

  /** The index of the first rule that matches `text`. */
  function FirstMatch(rules: seq<CategoryRule>, text: JsString): (r: Option<nat>)
    ensures r.Some? ==>
      r.value < |rules| && Matches(rules[r.value], text) && forall j :: 0 <= j < r.value ==> !Matches(rules[j], text)
    ensures r.None? ==> forall j :: 0 <= j < |rules| ==> !Matches(rules[j], text)
    decreases |rules|
  {
    if rules == [] then None
    else if Matches(rules[0], text) then Some(0)
    else match FirstMatch(rules[1..], text)
      case None => None
      case Some(k) => Some(k + 1)
  }

  /** The category name `detectCategory` looks up for `text`. */
  function CategoryLabel(text: JsString): (name: JsString)
    ensures name == DEFAULT_LABEL <==> forall k :: 0 <= k < |RULES| ==> !Matches(RULES[k], text)
    ensures name != DEFAULT_LABEL ==>
      exists k :: 0 <= k < |RULES| && name == RULES[k].name && Matches(RULES[k], text)
        && forall j :: 0 <= j < k ==> !Matches(RULES[j], text)
  {
    match FirstMatch(RULES, text)
    case None => DEFAULT_LABEL
    case Some(k) =>
      DefaultIsNoRuleLabel(k);
      RULES[k].name
  }

  lemma DefaultIsNoRuleLabel(k: nat)
    requires k < |RULES|
    ensures RULES[k].name != DEFAULT_LABEL
  {
    if k == 6 {
      assert RULES[k].name[0] != DEFAULT_LABEL[0];
    }
  }

  /** `data[0]?.id || 1`: the first search hit's id when it is truthy, otherwise 1. */
  function CategoryId(firstId: Option<int>): (id: int)
    ensures id != 0
    ensures firstId.Some? && firstId.value != 0 ==> id == firstId.value
    ensures firstId.None? || firstId.value == 0 ==> id == 1
  {
    match firstId
    case Some(v) => if v != 0 then v else 1
    case None => 1
  }

  /** A keyword found in one part of a text is found in the text the parts make up,
      with a space between them. */
  lemma MatchesEitherPart(a: JsString, b: JsString)
    ensures forall k :: 0 <= k < |RULES| && Matches(RULES[k], a) ==> Matches(RULES[k], a + [SPACE] + b)
    ensures forall k :: 0 <= k < |RULES| && Matches(RULES[k], b) ==> Matches(RULES[k], a + [SPACE] + b)
  {
    forall k | 0 <= k < |RULES| && Matches(RULES[k], a)
      ensures Matches(RULES[k], a + [SPACE] + b)
    {
      var j :| 0 <= j < |RULES[k].keywords| && Contains(a, RULES[k].keywords[j]);
      ContainsInConcat(a, [SPACE] + b, RULES[k].keywords[j]);
      assert a + [SPACE] + b == a + ([SPACE] + b);
    }
    forall k | 0 <= k < |RULES| && Matches(RULES[k], b)
      ensures Matches(RULES[k], a + [SPACE] + b)
    {
      var j :| 0 <= j < |RULES[k].keywords| && Contains(b, RULES[k].keywords[j]);
      ContainsInConcat(a + [SPACE], b, RULES[k].keywords[j]);
    }
  }

  /** Rule order breaks ties: any text with a politics keyword is filed under politics,
      whatever other rules it matches. */
  lemma PoliticsBeforeCrime(text: JsString)
    requires Matches(RULES[0], text)
    ensures CategoryLabel(text) == Lit("রাজনীতি")
  {
    assert FirstMatch(RULES, text) == Some(0);
  }

  /** An instance of the tie: a text naming a minister and the police matches the crime
      rule too, and is still filed under politics. */
  lemma MinisterAndPoliceIsPolitics()
    ensures var text := Lit("মন্ত্রী") + [SPACE] + Lit("পুলিশ");
      && Matches(RULES[1], text)
      && CategoryLabel(text) == Lit("রাজনীতি")
  {
    var minister, police := Lit("মন্ত্রী"), Lit("পুলিশ");
    var text := minister + [SPACE] + police;
    assert text[0..|minister|] == minister;
    assert InfixAt(text, RULES[0].keywords[3], 0);
    assert Matches(RULES[0], text);
    assert text[|minister| + 1..|minister| + 1 + |police|] == police;
    assert InfixAt(text, RULES[1].keywords[3], |minister| + 1);
    PoliticsBeforeCrime(text);
  }

  /** A text with none of the keywords, the empty one for instance, gets the default label. */
  lemma EmptyTextIsDefault()
    ensures CategoryLabel([]) == DEFAULT_LABEL
  {
    forall k | 0 <= k < |RULES|
      ensures !Matches(RULES[k], [])
    {
      forall w | w in RULES[k].keywords
        ensures !Contains([], w)
      {
        assert |w| > 0;
      }
    }
  }

  /** A text that mentions the police but no politics keyword is filed under crime. */
  lemma PoliceWithoutPoliticsIsCrime(text: JsString)
    requires Contains(text, Lit("পুলিশ")) && !Matches(RULES[0], text)
    ensures CategoryLabel(text) == Lit("অপরাধ")
  {
    assert Matches(RULES[1], text) by {
      assert RULES[1].keywords[3] == Lit("পুলিশ");
    }
    assert FirstMatch(RULES, text) == Some(1);
  }
}

=== FILE: extract.dfy ===
/** `extractJSON`: the greedy match of `/\{[\s\S]*\}/` in a model's reply, then `JSON.parse`. */
module JsonExtract {
  import opened JsText
  import opened Results

  const OPEN_BRACE: CodeUnit := 0x7B
  const CLOSE_BRACE: CodeUnit := 0x7D
  const PARSE_FAILED: JsString := Lit("JSON parse failed")

  /** The matched part of the reply: `text[start..end]`. */
  datatype Span = Span(start: nat, end: nat)

  /** The reply has a `{` with a `}` somewhere after it, the only case the pattern matches. */
  predicate HasBracePair(s: JsString) {
    exists i, j :: 0 <= i < j < |s| && s[i] == OPEN_BRACE && s[j] == CLOSE_BRACE
  }

  /** The index of the first `c` in `s`. */
  function FirstIndex(s: JsString, c: CodeUnit): (r: Option<nat>)
    ensures r.Some? ==> r.value < |s| && s[r.value] == c && c !in s[..r.value]
    ensures r.None? ==> c !in s
    decreases |s|
  {
    if s == [] then None
    else if s[0] == c then Some(0)
    else match FirstIndex(s[1..], c)
      case None => None
      case Some(k) =>
        assert s[..k + 1] == [s[0]] + s[1..][..k];
        Some(k + 1)
  }

  /** The index of the last `c` in `s`. */
  function LastIndex(s: JsString, c: CodeUnit): (r: Option<nat>)
    ensures r.Some? ==> r.value < |s| && s[r.value] == c && c !in s[r.value + 1..]
    ensures r.None? ==> c !in s
    decreases |s|
  {
    if s == [] then None
    else if s[|s| - 1] == c then Some(|s| - 1)
    else
      var init := s[..|s| - 1];
      match LastIndex(init, c)
      case None => None
      case Some(k) =>
        assert s[k + 1..] == init[k + 1..] + [s[|s| - 1]];
        Some(k)
  }

  /** What the greedy pattern matches: the leftmost `{` that can start a match (the first
      one) up to the rightmost `}` (the last one), or nothing when no `}` follows a `{`. */
  function MatchSpan(s: JsString): (r: Option<Span>)
    ensures r.Some? <==> HasBracePair(s)
    ensures r.Some? ==>
      && r.value.start < r.value.end <= |s|
      && s[r.value.start] == OPEN_BRACE && s[r.value.end - 1] == CLOSE_BRACE
      && OPEN_BRACE !in s[..r.value.start]
      && CLOSE_BRACE !in s[r.value.end..]
    // The match is the longest the pattern allows: every `{` ... `}` pair lies inside it.
    ensures r.Some? ==> forall i, j :: 0 <= i < j < |s| && s[i] == OPEN_BRACE && s[j] == CLOSE_BRACE ==>
      r.value.start <= i && j < r.value.end
  {
    match FirstIndex(s, OPEN_BRACE)
    case None => None
    case Some(i) =>
      match LastIndex(s, CLOSE_BRACE)
      case None => None
      case Some(j) =>
        if i < j then Some(Span(i, j + 1))
        else
          assert forall a, b :: 0 <= a < b < |s| && s[a] == OPEN_BRACE ==> s[b] != CLOSE_BRACE by {
            forall a, b | 0 <= a < b < |s| && s[a] == OPEN_BRACE
              ensures s[b] != CLOSE_BRACE
            {
              if b > j {
                assert s[j + 1..][b - j - 1] == s[b];
              }
            }
          }
          None
  }

  /** `extractJSON(text)`: throws "JSON parse failed" when the pattern does not match, and
      otherwise hands the matched text, which starts with `{` and ends with `}`, to
      `JSON.parse` (given as `parse`, which may throw). */
  function ExtractJSON<T>(text: JsString, parse: JsString -> Result<T, JsString>): (r: Result<T, JsString>)
    ensures !HasBracePair(text) ==> r == Err(PARSE_FAILED)
    ensures HasBracePair(text) ==>
      exists i, j :: 0 <= i < j < |text| && r == parse(text[i..j + 1])
        && text[i] == OPEN_BRACE && text[j] == CLOSE_BRACE
        && OPEN_BRACE !in text[..i] && CLOSE_BRACE !in text[j + 1..]
  {
    match MatchSpan(text)
    case None => Err(PARSE_FAILED)
    case Some(sp) =>
      assert text[sp.start..sp.end] == text[sp.start..(sp.end - 1) + 1];
      parse(text[sp.start..sp.end])
  }
}

=== FILE: fallback.dfy ===
/** `fallbackSEO`: the deterministic article the relay publishes when no language model
    produced an acceptable rewrite. */
module Fallback {
  import opened JsText
  import opened NumberText
  import opened Records

  /** U+0964 DEVANAGARI DANDA, the full stop of Bengali text. */
  const DANDA: CodeUnit := 0x0964

  const DEFAULT_TITLE: JsString := Lit("আজকের সংবাদ")
  /** The closing sentence appended to every fallback body. It is one literal in the
      relay; it is written in two parts here so that the verifier can read its first units
      without expanding the whole sentence. */
  const DISCLAIMER: JsString := Lit("\n\nউল্লেখ্য, ") + Lit("সংশ্লিষ্ট ঘটনাটি স্থানী\U{09DF}ভাবে আলোচনার সৃষ্টি করেছে।")
  const DEFAULT_KEYWORDS: seq<JsString> :=
    [Lit("বাংলাদেশ"), Lit("আজকের খবর"), Lit("সর্বশেষ সংবাদ"), Lit("স্থানী\U{09DF} সংবাদ")]
  const SLUG_PREFIX: JsString := Lit("news-")

  const META_TITLE_LIMIT: nat := 60
  const META_DESCRIPTION_LIMIT: nat := 160
  const EXCERPT_LIMIT: nat := 120

  /** `s.split("।")[0]`: the text before the first danda, or all of it. */
  function FirstSentence(s: JsString): (r: JsString)
    ensures IsPrefix(r, s)
    ensures DANDA !in r
    ensures |r| == |s| || s[|r|] == DANDA
    decreases |s|
  {
    if s == [] || s[0] == DANDA then []
    else
      var r := [s[0]] + FirstSentence(s[1..]);
      assert r[1..] == FirstSentence(s[1..]);
      r
  }

  /** The fallback article for the raw message `text`, stamped with the clock value `now`. */
  function FallbackSEO(text: JsString, now: int): (a: Article)
    requires IsTimeValue(now)
    // The title: the first sentence of the normalised text, or the default title when
    // that sentence is empty.
    ensures a.title != [] && DANDA !in a.title
    ensures var clean := Normalize(text);
      if clean == [] || clean[0] == DANDA then a.title == DEFAULT_TITLE
      else IsPrefix(a.title, clean) && (|a.title| == |clean| || clean[|a.title|] == DANDA)
    // The body: the normalised text followed by the disclaimer.
    ensures a.content == Normalize(text) + DISCLAIMER
    // meta_title cuts the first sentence itself (not the defaulted title) at 60 units.
    ensures var clean := Normalize(text);
      && IsPrefix(a.metaTitle, clean) && DANDA !in a.metaTitle
      && |a.metaTitle| <= META_TITLE_LIMIT
      && (|a.metaTitle| < META_TITLE_LIMIT ==>
            |a.metaTitle| == |clean| || clean[|a.metaTitle|] == DANDA)
    ensures var clean := Normalize(text);
      && IsPrefix(a.metaDescription, clean)
      && |a.metaDescription| == if |clean| <= META_DESCRIPTION_LIMIT then |clean| else META_DESCRIPTION_LIMIT
    ensures var clean := Normalize(text);
      && IsPrefix(a.excerpt, clean)
      && |a.excerpt| == if |clean| <= EXCERPT_LIMIT then |clean| else EXCERPT_LIMIT
    ensures a.metaKeywords == DEFAULT_KEYWORDS
    ensures IsPrefix(SLUG_PREFIX, a.slug) && a.slug[|SLUG_PREFIX|..] == NumberToString(now)
  {
    var clean := Normalize(text);
    Article(
      Title(clean),
      clean + DISCLAIMER,
      MetaTitle(clean),
      Take(clean, META_DESCRIPTION_LIMIT),
      DEFAULT_KEYWORDS,
      Slug(now),
      Take(clean, EXCERPT_LIMIT))
  }

  /** `first || "আজকের সংবাদ"`: an empty first sentence is falsy. */
  function Title(clean: JsString): (t: JsString)
    ensures t != [] && DANDA !in t
    ensures if clean == [] || clean[0] == DANDA then t == DEFAULT_TITLE
      else IsPrefix(t, clean) && (|t| == |clean| || clean[|t|] == DANDA)
  {
    var first := FirstSentence(clean);
    if first == [] then DEFAULT_TITLE else first
  }

  /** `first.slice(0, 60)`. */
  function MetaTitle(clean: JsString): (m: JsString)
    ensures IsPrefix(m, clean) && DANDA !in m
    ensures |m| <= META_TITLE_LIMIT
    ensures |m| < META_TITLE_LIMIT ==> |m| == |clean| || clean[|m|] == DANDA
  {
    var first := FirstSentence(clean);
    var m := Take(first, META_TITLE_LIMIT);
    MetaTitleWithinSentence(clean, first, m);
    m
  }

  /** `"news-" + Date.now()`. */
  function Slug(now: int): (s: JsString)
    requires IsTimeValue(now)
    ensures IsPrefix(SLUG_PREFIX, s) && s[|SLUG_PREFIX|..] == NumberToString(now)
  {
    SLUG_PREFIX + NumberToString(now)
  }

  lemma MetaTitleWithinSentence(clean: JsString, first: JsString, metaTitle: JsString)
    requires first == FirstSentence(clean)
    requires metaTitle == Take(first, META_TITLE_LIMIT)
    ensures IsPrefix(metaTitle, clean) && DANDA !in metaTitle
    ensures |metaTitle| < META_TITLE_LIMIT ==> |metaTitle| == |clean| || clean[|metaTitle|] == DANDA
  {
    assert metaTitle == clean[..|metaTitle|];
    assert forall k :: 0 <= k < |metaTitle| ==> metaTitle[k] == first[k];
  }

  /** Two fallback articles made at different instants never share a slug. */
  lemma FallbackSlugsDiffer(text1: JsString, now1: int, text2: JsString, now2: int)
    requires IsTimeValue(now1) && IsTimeValue(now2) && now1 != now2
    ensures FallbackSEO(text1, now1).slug != FallbackSEO(text2, now2).slug
  {
    var s1, s2 := FallbackSEO(text1, now1).slug, FallbackSEO(text2, now2).slug;
    if s1 == s2 {
      assert NumberToString(now1) == NumberToString(now2);
      NumberToStringInjective(now1, now2);
    }
  }

  /** Only the normalised text matters: re-normalising the input changes nothing. */
  lemma FallbackIgnoresSpacing(text: JsString, now: int)
    requires IsTimeValue(now)
    ensures FallbackSEO(Normalize(text), now) == FallbackSEO(text, now)
  {
    NormalizeIdempotent(text);
  }

  /** Empty or whitespace-only input still yields a complete article: the default title,
      the bare disclaimer as body, and empty meta title, description and excerpt. */
  lemma {:induction false} FallbackOfBlank(text: JsString, now: int)
    requires IsTimeValue(now) && AllSpaces(text)
    ensures var a := FallbackSEO(text, now);
      && a.title == DEFAULT_TITLE && a.content == DISCLAIMER
      && a.metaTitle == [] && a.metaDescription == [] && a.excerpt == []
      && a.metaKeywords == DEFAULT_KEYWORDS
  {
    NormalizeBlank(text);
    var a := FallbackSEO(text, now);
    assert a.content == DISCLAIMER by {
      assert Normalize(text) + DISCLAIMER == DISCLAIMER;
    }
  }
}

=== FILE: handler.dfy ===
/** `POST`: the webhook handler, as a function from the inbound update and the outcomes of
    its remote calls to the calls it makes and the HTTP response. */
module Handler {
  import opened JsText
  import opened Results
  import opened NumberText
  import opened Records
  import opened Providers
  import opened Category

  const ASK_FOR_TEXT: JsString := Lit("❌ নিউজ লেখা পাঠান")
  const DRAFT_SAVED: JsString := Lit("✅ নিউজ সফলভাবে WordPress-এ Draft হ\U{09DF}েছে")
  const ERROR_PREFIX: JsString := Lit("❌ ERROR: ")
  const DRAFT: JsString := Lit("draft")
  const KEYWORD_SEPARATOR: JsString := Lit(", ")

  /** `body.message`: the chat id as `String(chat.id)` renders it, and the text, if any. */
  datatype Message = Message(chatId: JsString, text: Option<JsString>)

  datatype Update = Update(message: Option<Message>)

  /** A remote call that either completes or throws an error with the given message. */
  datatype Step = Done | Fails(error: JsString)

  /** The WordPress category search: it throws, or yields the first hit's `id`, if any. */
  datatype Lookup = LookupFails(error: JsString) | Found(firstId: Option<int>)

  /** Everything outside the handler: configuration, the clock, and how each remote call
      turns out. `joinError` is the message of the `TypeError` raised when the object's
      `meta_keywords` is not an array. `firstSend` and `secondSend` are the outcomes of the
      request's first and second `sendMessage` calls. */
  datatype Env = Env(
    allowedChatId: Option<JsString>,
    now: int,
    gemini: Outcome,
    openRouter: Outcome,
    lookup: Lookup,
    joinError: JsString,
    post: Step,
    firstSend: Step,
    secondSend: Step)

  /** The body of the WordPress create-post request. */
  datatype PostRequest = PostRequest(
    title: JsValue,
    content: JsValue,
    slug: JsValue,
    excerpt: JsValue,
    status: JsString,
    categories: seq<int>,
    rankMathTitle: JsValue,
    rankMathDescription: JsValue,
    rankMathFocusKeyword: JsString)

  /** The remote calls the handler makes, in order. */
  datatype Effect =
    | CallProvider(provider: Provider)
    | SearchCategory(name: JsString)
    | CreatePost(request: PostRequest)
    | SendMessage(text: JsString)

  /** `{ ok: true }` with status 200, or a rejected handler promise (an error escaped). */
  datatype Response = Acknowledged | Crashed(error: JsString)

  datatype Run = Run(effects: seq<Effect>, response: Response)

  /** What the `try` block did: its calls, and the message of what it threw, if anything. */
  datatype Attempt = Attempt(effects: seq<Effect>, thrown: Option<JsString>)

  predicate NoSends(effects: seq<Effect>) {
    forall i :: 0 <= i < |effects| ==> !effects[i].SendMessage?
  }

  predicate IsDraftPost(e: Effect) {
    e.CreatePost? ==> e.request.status == DRAFT
  }

  function ProviderCalls(calls: seq<Provider>): (effects: seq<Effect>)
    ensures |effects| == |calls| && NoSends(effects)
    ensures forall i :: 0 <= i < |calls| ==> effects[i] == CallProvider(calls[i])
  {
    seq(|calls|, i requires 0 <= i < |calls| => CallProvider(calls[i]))
  }

  /** `createWPPost`'s request body for `seo` filed under category `id`. */
  function DraftRequest(seo: SeoObject, items: seq<JsString>, id: int): (r: PostRequest)
    ensures r.status == DRAFT && r.categories == [id]
    // The article's fields are sent as the object holds them.
    ensures && r.title == seo.title && r.content == seo.content && r.slug == seo.slug
            && r.excerpt == seo.excerpt
            && r.rankMathTitle == seo.metaTitle && r.rankMathDescription == seo.metaDescription
    ensures r.rankMathFocusKeyword == Join(items, KEYWORD_SEPARATOR)
    // The focus keyword keeps every keyword, the first one in front, with ", " between
    // neighbours; a single keyword is kept as it is.
    ensures |items| > 0 ==> IsPrefix(items[0], r.rankMathFocusKeyword)
    ensures |items| > 0 ==> |r.rankMathFocusKeyword| == TotalLength(items) + 2 * (|items| - 1)
    ensures |items| == 1 ==> r.rankMathFocusKeyword == items[0]
    ensures items == [] ==> r.rankMathFocusKeyword == []
  {
    PostRequest(seo.title, seo.content, seo.slug, seo.excerpt, DRAFT, [id],
                seo.metaTitle, seo.metaDescription, Join(items, KEYWORD_SEPARATOR))
  }

  /** `detectCategory(seo.title + " " + seo.content)` up to the remote lookup. */
  function ClassifiedName(seo: SeoObject): (name: JsString)
    ensures name == DEFAULT_LABEL <==>
      forall k :: 0 <= k < |RULES| ==> !Matches(RULES[k], ToText(seo.title) + [SPACE] + ToText(seo.content))
    // Otherwise it is the name of the first rule that matches that text.
    ensures name != DEFAULT_LABEL ==>
      var text := ToText(seo.title) + [SPACE] + ToText(seo.content);
      exists k :: 0 <= k < |RULES| && name == RULES[k].name && Matches(RULES[k], text)
        && forall j :: 0 <= j < k ==> !Matches(RULES[j], text)
    // A keyword in the title alone, or in the content alone, is enough to leave the default.
    ensures forall k :: 0 <= k < |RULES| && Matches(RULES[k], ToText(seo.title)) ==> name != DEFAULT_LABEL
    ensures forall k :: 0 <= k < |RULES| && Matches(RULES[k], ToText(seo.content)) ==> name != DEFAULT_LABEL
  {
    var title := ToText(seo.title);
    var content := ToText(seo.content);
    MatchesEitherPart(title, content);
    CategoryLabel(title + [SPACE] + content)
  }

  /** What the `try` block guarantees: it starts with the rewrite, creates drafts only,
      reports success right after creating the post, and sends at most that one message,
      which is sent exactly when it completes. */
  predicate ProperAttempt(a: Attempt, env: Env) {
    && |a.effects| > 0 && a.effects[0] == CallProvider(Gemini)
    && (forall i :: 0 <= i < |a.effects| ==> IsDraftPost(a.effects[i]))
    && (forall i :: 0 <= i < |a.effects| && a.effects[i] == SendMessage(DRAFT_SAVED) ==>
          i > 0 && a.effects[i - 1].CreatePost?)
    && (|| NoSends(a.effects)
        || (&& a.effects[|a.effects| - 1] == SendMessage(DRAFT_SAVED) && OneReplyLast(a.effects)
            && (a.thrown.Some? <==> env.firstSend.Fails?)))
    && (a.thrown.None? ==> OneReplyLast(a.effects) && a.effects[|a.effects| - 1] == SendMessage(DRAFT_SAVED))
  }

  /** The message of the first step before the success report that throws: the category
      search, `meta_keywords.join` (a `TypeError` when it is not an array), or
      `createWPPost`. None when the post is created. */
  function FirstFailure(seo: SeoObject, env: Env): Option<JsString> {
    if env.lookup.LookupFails? then Some(env.lookup.error)
    else if seo.metaKeywords.NotAnArray? then Some(env.joinError)
    else if env.post.Fails? then Some(env.post.error)
    else None
  }

  /** The steps after the rewrite and classification: look the category `name` up, build and send the post,
      report success. It stops at the first step that throws. */
  function Publish(seo: SeoObject, name: JsString, env: Env): (a: Attempt)
    ensures |a.effects| >= 1 && a.effects[0] == SearchCategory(name)
    ensures forall i :: 0 <= i < |a.effects| ==> IsDraftPost(a.effects[i])
    ensures forall i :: 1 <= i < |a.effects| ==> !a.effects[i].SearchCategory? && !a.effects[i].CallProvider?
    // The success report is the last call, comes only after the post was created, and
    // is the only message sent here.
    ensures NoSends(a.effects) || (
      && |a.effects| == 3 && a.effects[1].CreatePost? && a.effects[2] == SendMessage(DRAFT_SAVED)
      && (a.thrown.Some? <==> env.firstSend.Fails?))
    ensures a.thrown.None? ==> |a.effects| == 3 && a.effects[2] == SendMessage(DRAFT_SAVED)
    // A failed search, or keywords that are not an array, end the block before the post.
    ensures env.lookup.LookupFails? ==> a == Attempt([SearchCategory(name)], Some(env.lookup.error))
    ensures env.lookup.Found? && seo.metaKeywords.NotAnArray? ==>
      a == Attempt([SearchCategory(name)], Some(env.joinError))
    // Once the search and the join complete, the post request is made, whatever its outcome.
    ensures env.lookup.Found? && seo.metaKeywords.KeywordArray? ==>
      |a.effects| >= 2
      && a.effects[1] == CreatePost(DraftRequest(seo, seo.metaKeywords.items, CategoryId(env.lookup.firstId)))
    ensures env.lookup.Found? && seo.metaKeywords.KeywordArray? && env.post.Fails? ==>
      a == Attempt(
        [SearchCategory(name), CreatePost(DraftRequest(seo, seo.metaKeywords.items, CategoryId(env.lookup.firstId)))],
        Some(env.post.error))
    // The post carries the object, its joined keywords and the id the search chose.
    ensures forall i :: 0 <= i < |a.effects| && a.effects[i].CreatePost? ==>
      && env.lookup.Found? && seo.metaKeywords.KeywordArray?
      && a.effects[i].request == DraftRequest(seo, seo.metaKeywords.items, CategoryId(env.lookup.firstId))
    // Success is reported exactly when every step before the report completed.
    ensures !NoSends(a.effects) <==> FirstFailure(seo, env).None?
    // What the block throws: the first failure, or else the report's own failure.
    ensures FirstFailure(seo, env).Some? ==> a.thrown == FirstFailure(seo, env)
    ensures FirstFailure(seo, env).None? ==>
      a.thrown == if env.firstSend.Fails? then Some(env.firstSend.error) else None
  {
    var search := [SearchCategory(name)];
    match env.lookup
    case LookupFails(e) => Attempt(search, Some(e))
    case Found(firstId) =>
      match seo.metaKeywords
      case NotAnArray => Attempt(search, Some(env.joinError))
      case KeywordArray(items) =>
        var posted := search + [CreatePost(DraftRequest(seo, items, CategoryId(firstId)))];
        match env.post
        case Fails(e) => Attempt(posted, Some(e))
        case Done =>
          var reported := posted + [SendMessage(DRAFT_SAVED)];
          match env.firstSend
          case Fails(e) => Attempt(reported, Some(e))
          case Done => Attempt(reported, None)
  }

  /** The `try` block once `generateSEO` (which never throws) has produced `gen` and the
      classifier has named its category: the provider calls it made, then the publishing
      steps. */
  function TryBlock(gen: Generation, name: JsString, env: Env): (a: Attempt)
    requires |gen.calls| > 0 && gen.calls[0] == Gemini
    ensures ProperAttempt(a, env)
  {
    var calls := ProviderCalls(gen.calls);
    var published := Publish(gen.seo, name, env);
    var effects := calls + published.effects;
    assert forall i :: |calls| <= i < |effects| ==> effects[i] == published.effects[i - |calls|];
    assert !NoSends(published.effects) ==> effects[..|effects| - 1] == calls + published.effects[..2];
    Attempt(effects, published.thrown)
  }

  /** The `try` block for the message text `rawText`. */
  function Process(rawText: JsString, env: Env): (a: Attempt)
    requires IsTimeValue(env.now)
    ensures ProperAttempt(a, env)
  {
    var gen := GenerateSEO(rawText, env.now, env.gemini, env.openRouter);
    TryBlock(gen, ClassifiedName(gen.seo), env)
  }

  /** The outcome of the `sendMessage` call that follows `sent` earlier ones. */
  function NextSend(env: Env, sent: nat): Step {
    if sent == 0 then env.firstSend else env.secondSend
  }

  /** The end of the handler for a message with text: after the `try` block, the `catch`
      reports what was thrown, and any error from that report escapes. */
  function Conclude(a: Attempt, env: Env): (run: Run)
    requires ProperAttempt(a, env)
    ensures |run.effects| > 0 && run.effects[0] == CallProvider(Gemini)
    ensures forall i :: 0 <= i < |run.effects| ==> IsDraftPost(run.effects[i])
    ensures forall i :: 0 <= i < |run.effects| && run.effects[i] == SendMessage(DRAFT_SAVED) ==>
      i > 0 && run.effects[i - 1].CreatePost?
    ensures env.firstSend.Done? ==> OneReplyLast(run.effects) && run.response == Acknowledged
    ensures run.response.Crashed? ==> env.firstSend.Fails? || env.secondSend.Fails?
    // Without an error the calls stand as they were.
    ensures a.thrown.None? ==> run == Run(a.effects, Acknowledged)
    // An error is reported as one more message, "❌ ERROR: " followed by its text.
    ensures a.thrown.Some? ==> run.effects == a.effects + [SendMessage(ERROR_PREFIX + a.thrown.value)]
    // That report is the request's first message unless the success report already went
    // out; the handler fails exactly when that send throws, with its error.
    ensures a.thrown.Some? && NoSends(a.effects) ==>
      run.response == if env.firstSend.Fails? then Crashed(env.firstSend.error) else Acknowledged
    ensures a.thrown.Some? && !NoSends(a.effects) ==>
      run.response == if env.secondSend.Fails? then Crashed(env.secondSend.error) else Acknowledged
  {
    match a.thrown
    case None => Run(a.effects, Acknowledged)
    case Some(e) =>
      ErrorReportIsNotSuccess(e);
      var sent := if NoSends(a.effects) then 0 else 1;
      Run(a.effects + [SendMessage(ERROR_PREFIX + e)],
          match NextSend(env, sent)
          case Done => Acknowledged
          case Fails(e2) => Crashed(e2))
  }

  /** `String(chatId) === process.env.ALLOWED_CHAT_ID`; an unset variable admits no chat. */
  predicate Authorized(update: Update, env: Env) {
    update.message.Some? && env.allowedChatId == Some(update.message.value.chatId)
  }

  /** `rawText` is truthy: present and non-empty. */
  predicate HasText(update: Update) {
    update.message.Some? && update.message.value.text.Some? && update.message.value.text.value != []
  }

  /** Exactly one message is sent, and it is the last call. */
  predicate OneReplyLast(effects: seq<Effect>) {
    |effects| > 0 && effects[|effects| - 1].SendMessage? && NoSends(effects[..|effects| - 1])
  }

  function Handle(update: Update, env: Env): (run: Run)
    requires IsTimeValue(env.now)
    // Updates without a message, and messages from any other chat, are acknowledged
    // without a single remote call.
    ensures !Authorized(update, env) ==> run == Run([], Acknowledged)
    // A message without text gets the request for text and nothing else.
    ensures Authorized(update, env) && !HasText(update) ==> run.effects == [SendMessage(ASK_FOR_TEXT)]
    ensures Authorized(update, env) && !HasText(update) ==> (run.response.Crashed? <==> env.firstSend.Fails?)
    // A message with text is always rewritten first, starting with Gemini.
    ensures Authorized(update, env) && HasText(update) ==> |run.effects| > 0 && run.effects[0] == CallProvider(Gemini)
    // Posts are only ever created as drafts.
    ensures forall i :: 0 <= i < |run.effects| ==> IsDraftPost(run.effects[i])
    // The success report always directly follows the post creation.
    ensures forall i :: 0 <= i < |run.effects| && run.effects[i] == SendMessage(DRAFT_SAVED) ==>
      i > 0 && run.effects[i - 1].CreatePost?
    // While Telegram accepts the first message, a processed request gets exactly one reply
    // and the handler acknowledges the webhook.
    ensures Authorized(update, env) && env.firstSend.Done? ==>
      OneReplyLast(run.effects) && run.response == Acknowledged
    // The handler promise rejects only when a `sendMessage` call itself throws.
    ensures run.response.Crashed? ==> env.firstSend.Fails? || env.secondSend.Fails?
  {
    match update.message
    case None => Run([], Acknowledged)
    case Some(m) =>
      if env.allowedChatId != Some(m.chatId) then Run([], Acknowledged)
      else if m.text.None? || m.text.value == [] then
        Run([SendMessage(ASK_FOR_TEXT)],
            match env.firstSend
            case Done => Acknowledged
            case Fails(e) => Crashed(e))
      else
        Conclude(Process(m.text.value, env), env)
  }

  /** The reply a processed message gets, given the object the rewrite produced:
      - when a step before the report fails, its error is reported, and that report is
        the last call; the handler then fails only if Telegram rejects that report;
      - otherwise the success report is sent, and if Telegram rejects it, its error is
        reported in a second message whose own failure is what makes the handler fail.
      The post request is made exactly when the search and the keyword join complete, and
      the success report is sent exactly when that request completes as well. */
  predicate RepliesFor(run: Run, seo: SeoObject, env: Env) {
    var f := FirstFailure(seo, env);
    && |run.effects| > 0
    && (env.lookup.Found? && seo.metaKeywords.KeywordArray? ==>
          CreatePost(DraftRequest(seo, seo.metaKeywords.items, CategoryId(env.lookup.firstId))) in run.effects)
    && (env.lookup.LookupFails? || seo.metaKeywords.NotAnArray? ==>
          forall i :: 0 <= i < |run.effects| ==> !run.effects[i].CreatePost?)
    && (SendMessage(DRAFT_SAVED) in run.effects <==> f.None?)
    && (f.Some? ==>
          && run.effects[|run.effects| - 1] == SendMessage(ERROR_PREFIX + f.value)
          && (run.response.Crashed? <==> env.firstSend.Fails?))
    && (f.None? && env.firstSend.Done? ==>
          run.effects[|run.effects| - 1] == SendMessage(DRAFT_SAVED) && run.response == Acknowledged)
    && (f.None? && env.firstSend.Fails? ==>
          && |run.effects| >= 2
          && run.effects[|run.effects| - 2] == SendMessage(DRAFT_SAVED)
          && run.effects[|run.effects| - 1] == SendMessage(ERROR_PREFIX + env.firstSend.error)
          && (run.response.Crashed? <==> env.secondSend.Fails?))
  }

  /** A message with text gets the reply `RepliesFor` describes, for the object
      `generateSEO` resolved to. */
  lemma HandleReply(update: Update, env: Env)
    requires IsTimeValue(env.now) && Authorized(update, env) && HasText(update)
    ensures RepliesFor(Handle(update, env),
      GenerateSEO(update.message.value.text.value, env.now, env.gemini, env.openRouter).seo, env)
  {
    var text := update.message.value.text.value;
    var gen := GenerateSEO(text, env.now, env.gemini, env.openRouter);
    HandleUnfolds(update, env);
    ProcessUnfolds(text, env);
    TryBlockReply(gen, ClassifiedName(gen.seo), env);
  }

  /** A message with text is rewritten by exactly the providers `generateSEO` called, in
      order, and the category searched next is the classifier's label for the object's
      title and content. */
  lemma HandleSearchesClassified(update: Update, env: Env)
    requires IsTimeValue(env.now) && Authorized(update, env) && HasText(update)
    ensures var gen := GenerateSEO(update.message.value.text.value, env.now, env.gemini, env.openRouter);
      var run := Handle(update, env);
      && |run.effects| > |gen.calls|
      && run.effects[..|gen.calls|] == ProviderCalls(gen.calls)
      && run.effects[|gen.calls|] == SearchCategory(ClassifiedName(gen.seo))
  {
    var text := update.message.value.text.value;
    var gen := GenerateSEO(text, env.now, env.gemini, env.openRouter);
    HandleUnfolds(update, env);
    ProcessUnfolds(text, env);
    TryBlockSearches(gen, ClassifiedName(gen.seo), env);
  }

  lemma TryBlockSearches(gen: Generation, name: JsString, env: Env)
    requires |gen.calls| > 0 && gen.calls[0] == Gemini
    ensures var run := Conclude(TryBlock(gen, name, env), env);
      && |run.effects| > |gen.calls|
      && run.effects[..|gen.calls|] == ProviderCalls(gen.calls)
      && run.effects[|gen.calls|] == SearchCategory(name)
  {
    var calls := ProviderCalls(gen.calls);
    var p := Publish(gen.seo, name, env);
    var a := TryBlock(gen, name, env);
    assert a.effects == calls + p.effects;
    var run := Conclude(a, env);
    assert run.effects[..|a.effects|] == a.effects;
    assert run.effects[..|calls|] == a.effects[..|calls|] == calls;
    assert run.effects[|calls|] == a.effects[|calls|] == p.effects[0];
  }

  lemma TryBlockReply(gen: Generation, name: JsString, env: Env)
    requires |gen.calls| > 0 && gen.calls[0] == Gemini
    ensures RepliesFor(Conclude(TryBlock(gen, name, env), env), gen.seo, env)
  {
    var p := Publish(gen.seo, name, env);
    var calls := ProviderCalls(gen.calls);
    var a := TryBlock(gen, name, env);
    assert a == Attempt(calls + p.effects, p.thrown);
    var run := Conclude(a, env);
    if FirstFailure(gen.seo, env).Some? {
      ErrorReportIsNotSuccess(p.thrown.value);
      assert NoSends(a.effects);
      assert SendMessage(DRAFT_SAVED) !in a.effects;
    } else {
      assert a.effects[|a.effects| - 1] == SendMessage(DRAFT_SAVED);
      if env.firstSend.Fails? {
        ErrorReportIsNotSuccess(env.firstSend.error);
      }
    }
  }

  lemma ErrorReportIsNotSuccess(e: JsString)
    ensures ERROR_PREFIX + e != DRAFT_SAVED
  {
    assert (ERROR_PREFIX + e)[0] == ERROR_PREFIX[0] != DRAFT_SAVED[0];
  }

  /** When neither provider yields an acceptable rewrite and every remote call succeeds,
      the handler tries both providers, files the object `generateSEO` fell back to (the
      fallback article, by its contract) as a draft under the classifier's category, and
      reports success. */
  lemma ProvidersDownStillDrafts(update: Update, env: Env)
    requires IsTimeValue(env.now) && Authorized(update, env) && HasText(update)
    requires !Accepted(env.gemini) && !Accepted(env.openRouter)
    requires env.lookup.Found? && env.post.Done? && env.firstSend.Done?
    ensures var seo := GenerateSEO(update.message.value.text.value, env.now, env.gemini, env.openRouter).seo;
      && seo.metaKeywords.KeywordArray?
      && Handle(update, env) == Run(
        [ CallProvider(Gemini), CallProvider(OpenRouter),
          SearchCategory(ClassifiedName(seo)),
          CreatePost(DraftRequest(seo, seo.metaKeywords.items, CategoryId(env.lookup.firstId))),
          SendMessage(DRAFT_SAVED) ],
        Acknowledged)
  {
    var text := update.message.value.text.value;
    var gen := GenerateSEO(text, env.now, env.gemini, env.openRouter);
    FallbackGeneration(text, env);
    HandleUnfolds(update, env);
    ProcessUnfolds(text, env);
    BothProvidersPublished(gen, ClassifiedName(gen.seo), env);
  }

  lemma BothProvidersPublished(gen: Generation, name: JsString, env: Env)
    requires gen.calls == [Gemini, OpenRouter] && gen.seo.metaKeywords.KeywordArray?
    requires env.lookup.Found? && env.post.Done? && env.firstSend.Done?
    ensures Conclude(TryBlock(gen, name, env), env) == Run(
      [ CallProvider(Gemini), CallProvider(OpenRouter), SearchCategory(name),
        CreatePost(DraftRequest(gen.seo, gen.seo.metaKeywords.items, CategoryId(env.lookup.firstId))),
        SendMessage(DRAFT_SAVED) ],
      Acknowledged)
  {
    var rest := [
      SearchCategory(name),
      CreatePost(DraftRequest(gen.seo, gen.seo.metaKeywords.items, CategoryId(env.lookup.firstId))),
      SendMessage(DRAFT_SAVED)];
    PublishAllDone(gen, name, env);
    BothProvidersThenPublish(gen.calls, rest);
    ConcludeWithoutError([CallProvider(Gemini), CallProvider(OpenRouter)] + rest, env);
  }

  // The lemmas below only unfold one layer of the handler each. They carry no property of
  // the relay of their own: they split the solver's work for the lemmas above.

  lemma BothProvidersThenPublish(calls: seq<Provider>, rest: seq<Effect>)
    requires calls == [Gemini, OpenRouter]
    ensures ProviderCalls(calls) + rest == [CallProvider(Gemini), CallProvider(OpenRouter)] + rest
  {
    assert ProviderCalls(calls) == [CallProvider(Gemini), CallProvider(OpenRouter)];
  }

  lemma FallbackGeneration(text: JsString, env: Env)
    requires IsTimeValue(env.now) && !Accepted(env.gemini) && !Accepted(env.openRouter)
    ensures var gen := GenerateSEO(text, env.now, env.gemini, env.openRouter);
      gen.calls == [Gemini, OpenRouter] && gen.seo.metaKeywords.KeywordArray?
  {
  }

  lemma HandleUnfolds(update: Update, env: Env)
    requires IsTimeValue(env.now) && Authorized(update, env) && HasText(update)
    ensures Handle(update, env) == Conclude(Process(update.message.value.text.value, env), env)
  {
  }

  lemma ProcessUnfolds(text: JsString, env: Env)
    requires IsTimeValue(env.now)
    ensures var gen := GenerateSEO(text, env.now, env.gemini, env.openRouter);
      Process(text, env) == TryBlock(gen, ClassifiedName(gen.seo), env)
  {
  }

  lemma ConcludeWithoutError(effects: seq<Effect>, env: Env)
    requires ProperAttempt(Attempt(effects, None), env)
    ensures Conclude(Attempt(effects, None), env) == Run(effects, Acknowledged)
  {
  }

  lemma PublishAllDone(gen: Generation, name: JsString, env: Env)
    requires |gen.calls| > 0 && gen.calls[0] == Gemini && gen.seo.metaKeywords.KeywordArray?
    requires env.lookup.Found? && env.post.Done? && env.firstSend.Done?
    ensures TryBlock(gen, name, env) == Attempt(
      ProviderCalls(gen.calls) + [
        SearchCategory(name),
        CreatePost(DraftRequest(gen.seo, gen.seo.metaKeywords.items, CategoryId(env.lookup.firstId))),
        SendMessage(DRAFT_SAVED)],
      None)
  {
  }
}

=== FILE: jstext.dfy ===
/** JavaScript strings as sequences of UTF-16 code units, and the string operations of
    the relay that the rest of the model is built from: `\s`, `trim`, `slice(0, n)`,
    `includes`, and the whitespace collapse `replace(/\s+/g, " ")`. */
module JsText {

  /** One UTF-16 code unit, the element type of a JavaScript string. */
  newtype CodeUnit = x: int | 0 <= x < 0x1_0000

  type JsString = seq<CodeUnit>

  /** The code units of a literal. Every literal of the relay lies in the basic
      multilingual plane, where one character is one code unit; a character outside it
      would need a surrogate pair and is shown as U+FFFD here. */
  function Lit(s: string): (r: JsString)
    ensures |r| == |s|
  {
    seq(|s|, i requires 0 <= i < |s| => if s[i] as int < 0x1_0000 then s[i] as int as CodeUnit else 0xFFFD)
  }

  const SPACE: CodeUnit := 0x20

  /** The ECMAScript WhiteSpace and LineTerminator code units: the class `\s` matches them
      and `String.prototype.trim` removes them. */
  predicate IsSpace(c: CodeUnit) {
    || c == 0x09 || c == 0x0A || c == 0x0B || c == 0x0C || c == 0x0D
    || c == 0x20 || c == 0xA0 || c == 0x1680 || (0x2000 <= c <= 0x200A)
    || c == 0x2028 || c == 0x2029 || c == 0x202F || c == 0x205F || c == 0x3000
    || c == 0xFEFF
  }

  predicate AllSpaces(s: JsString) {
    forall i :: 0 <= i < |s| ==> IsSpace(s[i])
  }

  predicate IsPrefix(p: JsString, s: JsString) {
    |p| <= |s| && s[..|p|] == p
  }

  /** `w` occurs in `s` starting at index `i`. */
  predicate InfixAt(s: JsString, w: JsString, i: nat) {
    i + |w| <= |s| && s[i..i + |w|] == w
  }

  /** `s.includes(w)`: a literal, case-sensitive substring test. */
  predicate Contains(s: JsString, w: JsString) {
    exists i: nat | i <= |s| :: InfixAt(s, w, i)
  }

  /** An occurrence in either part of a concatenation is an occurrence in the whole. */
  lemma ContainsInConcat(a: JsString, b: JsString, w: JsString)
    ensures Contains(a, w) ==> Contains(a + b, w)
    ensures Contains(b, w) ==> Contains(a + b, w)
  {
    if Contains(a, w) {
      var i: nat :| i <= |a| && InfixAt(a, w, i);
      assert (a + b)[i..i + |w|] == a[i..i + |w|];
      assert InfixAt(a + b, w, i);
    }
    if Contains(b, w) {
      var i: nat :| i <= |b| && InfixAt(b, w, i);
      assert (a + b)[|a| + i..|a| + i + |w|] == b[i..i + |w|];
      assert InfixAt(a + b, w, |a| + i);
    }
  }

  /** `s.slice(0, n)` for a non-negative `n`: the first `n` code units, or all of them. */
  function Take(s: JsString, n: nat): (r: JsString)
    ensures IsPrefix(r, s)
    ensures |r| == if |s| <= n then |s| else n
  {
    if |s| <= n then s else s[..n]
  }

  /** The code units of `s` that are not whitespace, in order. */
  function NonSpaces(s: JsString): (r: JsString)
    ensures |r| <= |s|
  {
    if s == [] then []
    else (if IsSpace(s[0]) then [] else [s[0]]) + NonSpaces(s[1..])
  }

  lemma {:induction false} NonSpacesAppend(a: JsString, b: JsString)
    ensures NonSpaces(a + b) == NonSpaces(a) + NonSpaces(b)
    decreases |a|
  {
    if a == [] {
      assert a + b == b;
    } else {
      var head := if IsSpace(a[0]) then [] else [a[0]];
      assert (a + b)[0] == a[0];
      assert (a + b)[1..] == a[1..] + b;
      assert NonSpaces(a + b) == head + NonSpaces(a[1..] + b);
      assert NonSpaces(a) == head + NonSpaces(a[1..]);
      NonSpacesAppend(a[1..], b);
    }
  }

  lemma {:induction false} NonSpacesOfSpaces(s: JsString)
    requires AllSpaces(s)
    ensures NonSpaces(s) == []
    decreases |s|
  {
    if s != [] {
      NonSpacesOfSpaces(s[1..]);
    }
  }

  /** After a whitespace-normalisation every whitespace unit is a plain space, and no two
      whitespace units are adjacent. */
  predicate SingleSpaced(s: JsString) {
    forall i :: 0 <= i < |s| && IsSpace(s[i]) ==>
      s[i] == SPACE && (i + 1 < |s| ==> !IsSpace(s[i + 1]))
  }

  /** `s.trimStart()`: drops the leading whitespace and nothing else. */
  function TrimStart(s: JsString): (r: JsString)
    ensures |r| <= |s| && r == s[|s| - |r|..]
    ensures AllSpaces(s[..|s| - |r|])
    ensures r == [] || !IsSpace(r[0])
    ensures SingleSpaced(s) ==> SingleSpaced(r)
    decreases |s|
  {
    if s != [] && IsSpace(s[0]) then
      var r := TrimStart(s[1..]);
      TrimStartStep(s, r);
      r
    else s
  }

  lemma TrimStartStep(s: JsString, r: JsString)
    requires s != [] && IsSpace(s[0])
    requires |r| <= |s| - 1 && r == s[1..][|s| - 1 - |r|..]
    requires AllSpaces(s[1..][..|s| - 1 - |r|])
    requires SingleSpaced(s[1..]) ==> SingleSpaced(r)
    ensures r == s[|s| - |r|..]
    ensures AllSpaces(s[..|s| - |r|])
    ensures SingleSpaced(s) ==> SingleSpaced(r)
  {
    var k := |s| - |r|;
    assert s[1..][k - 1..] == s[k..];
    assert s[..k] == [s[0]] + s[1..][..k - 1];
    SingleSpacedTail(s);
  }

  lemma SingleSpacedTail(s: JsString)
    requires s != []
    ensures SingleSpaced(s) ==> SingleSpaced(s[1..])
  {
    var t := s[1..];
    if SingleSpaced(s) {
      forall i | 0 <= i < |t| && IsSpace(t[i])
        ensures t[i] == SPACE && (i + 1 < |t| ==> !IsSpace(t[i + 1]))
      {
        assert t[i] == s[i + 1];
        if i + 1 < |t| {
          assert t[i + 1] == s[i + 2];
        }
      }
    }
  }

  /** `s.trimEnd()`: drops the trailing whitespace and nothing else. */
  function TrimEnd(s: JsString): (r: JsString)
    ensures |r| <= |s| && r == s[..|r|]
    ensures AllSpaces(s[|r|..])
    ensures r == [] || !IsSpace(r[|r| - 1])
    ensures SingleSpaced(s) ==> SingleSpaced(r)
    decreases |s|
  {
    if s != [] && IsSpace(s[|s| - 1]) then
      var r := TrimEnd(s[..|s| - 1]);
      TrimEndStep(s, r);
      r
    else s
  }

  lemma TrimEndStep(s: JsString, r: JsString)
    requires s != [] && IsSpace(s[|s| - 1])
    requires |r| <= |s| - 1 && r == s[..|s| - 1][..|r|]
    requires AllSpaces(s[..|s| - 1][|r|..])
    requires SingleSpaced(s[..|s| - 1]) ==> SingleSpaced(r)
    ensures r == s[..|r|]
    ensures AllSpaces(s[|r|..])
    ensures SingleSpaced(s) ==> SingleSpaced(r)
  {
    assert s[..|s| - 1][..|r|] == s[..|r|];
    assert s[|r|..] == s[..|s| - 1][|r|..] + [s[|s| - 1]];
    SingleSpacedInit(s);
  }

  lemma SingleSpacedInit(s: JsString)
    requires s != []
    ensures SingleSpaced(s) ==> SingleSpaced(s[..|s| - 1])
  {
    var t := s[..|s| - 1];
    if SingleSpaced(s) {
      forall i | 0 <= i < |t| && IsSpace(t[i])
        ensures t[i] == SPACE && (i + 1 < |t| ==> !IsSpace(t[i + 1]))
      {
        assert t[i] == s[i];
        if i + 1 < |t| {
          assert t[i + 1] == s[i + 1];
        }
      }
    }
  }

  /** `s.trim()`: removes exactly the whitespace at both ends. The result keeps every
      non-whitespace unit and neither starts nor ends with whitespace, which together
      single it out among the infixes of `s`. */
  function Trim(s: JsString): (r: JsString)
    ensures NonSpaces(r) == NonSpaces(s)
    ensures r == [] || (!IsSpace(r[0]) && !IsSpace(r[|r| - 1]))
    ensures SingleSpaced(s) ==> SingleSpaced(r)
    ensures Contains(s, r)
  {
    var t := TrimStart(s);
    var r := TrimEnd(t);
    TrimKeepsNonSpaces(s, t, r);
    r
  }

  lemma TrimKeepsNonSpaces(s: JsString, t: JsString, r: JsString)
    requires |t| <= |s| && t == s[|s| - |t|..] && AllSpaces(s[..|s| - |t|])
    requires |r| <= |t| && r == t[..|r|] && AllSpaces(t[|r|..])
    ensures NonSpaces(r) == NonSpaces(s)
    ensures Contains(s, r)
  {
    var i := |s| - |t|;
    assert s == s[..i] + t;
    assert t == r + t[|r|..];
    NonSpacesAppend(s[..i], t);
    NonSpacesOfSpaces(s[..i]);
    NonSpacesAppend(r, t[|r|..]);
    NonSpacesOfSpaces(t[|r|..]);
    assert s[i..i + |r|] == r;
    assert InfixAt(s, r, i);
  }

  /** `s.replace(/\s+/g, " ")`: every maximal run of whitespace becomes one space. */
  function Collapse(s: JsString): (r: JsString)
    ensures NonSpaces(r) == NonSpaces(s)
    ensures SingleSpaced(r)
    ensures r == [] <==> s == []
    ensures (r != [] && IsSpace(r[0])) <==> (s != [] && IsSpace(s[0]))
    decreases |s|
  {
    if s == [] then []
    else if IsSpace(s[0]) then
      var t := TrimStart(s);
      assert s == s[..|s| - |t|] + t;
      NonSpacesAppend(s[..|s| - |t|], t);
      NonSpacesOfSpaces(s[..|s| - |t|]);
      var r := [SPACE] + Collapse(t);
      assert NonSpaces(r) == NonSpaces(Collapse(t)) by {
        assert r[1..] == Collapse(t);
      }
      r
    else
      var r := [s[0]] + Collapse(s[1..]);
      assert r[1..] == Collapse(s[1..]);
      r
  }

  /** `s.replace(/\s+/g, " ").trim()`, the relay's whitespace normalisation. */
  function Normalize(s: JsString): (r: JsString)
    ensures NonSpaces(r) == NonSpaces(s)
    ensures SingleSpaced(r)
    ensures r == [] || (!IsSpace(r[0]) && !IsSpace(r[|r| - 1]))
  {
    Trim(Collapse(s))
  }

  /** Collapsing changes nothing once whitespace is already single spaces. */
  lemma {:induction false} CollapseSingleSpaced(s: JsString)
    requires SingleSpaced(s)
    ensures Collapse(s) == s
    decreases |s|
  {
    if s != [] {
      var t := s[1..];
      SingleSpacedTail(s);
      CollapseSingleSpaced(t);
      if IsSpace(s[0]) {
        SpaceThenCollapsed(s, Collapse(t));
      } else {
        CollapseOfUnit(s);
        assert s == [s[0]] + t;
      }
    }
  }

  /** One step of `CollapseSingleSpaced`: a lone space in front of a collapsed tail. */
  lemma SpaceThenCollapsed(s: JsString, c: JsString)
    requires SingleSpaced(s) && s != [] && IsSpace(s[0])
    requires c == Collapse(s[1..]) && c == s[1..]
    ensures Collapse(s) == s
  {
    LoneSpace(s);
    CollapseOfSpace(s);
    assert s == [SPACE] + s[1..];
  }

  /** In single-spaced text a leading space is a run of one. */
  lemma LoneSpace(s: JsString)
    requires SingleSpaced(s) && s != [] && IsSpace(s[0])
    ensures s[0] == SPACE && TrimStart(s) == s[1..]
  {
    var t := s[1..];
    assert TrimStart(s) == TrimStart(t);
    assert t == [] || !IsSpace(t[0]);
  }

  lemma CollapseOfUnit(s: JsString)
    requires s != [] && !IsSpace(s[0])
    ensures Collapse(s) == [s[0]] + Collapse(s[1..])
  {
  }

  /** Normalising twice is normalising once. */
  lemma NormalizeIdempotent(s: JsString)
    ensures Normalize(Normalize(s)) == Normalize(s)
  {
    var n := Normalize(s);
    CollapseSingleSpaced(n);
    assert TrimStart(n) == n;
    assert TrimEnd(n) == n;
  }

  /** Normalising empties exactly the whitespace-only strings. */
  lemma NormalizeBlank(s: JsString)
    ensures Normalize(s) == [] <==> AllSpaces(s)
  {
    var r := Normalize(s);
    if AllSpaces(s) {
      NonSpacesOfSpaces(s);
      NonSpacesEmpty(r);
    } else {
      var k :| 0 <= k < |s| && !IsSpace(s[k]);
      NonSpacesKeeps(s, k);
    }
  }

  /** A non-whitespace unit survives into `NonSpaces`. */
  lemma {:induction false} NonSpacesKeeps(s: JsString, k: nat)
    requires k < |s| && !IsSpace(s[k])
    ensures NonSpaces(s) != []
    decreases k
  {
    if k > 0 && IsSpace(s[0]) {
      NonSpacesKeeps(s[1..], k - 1);
    }
  }

  lemma {:induction false} NonSpacesEmpty(s: JsString)
    requires NonSpaces(s) == []
    ensures AllSpaces(s)
    decreases |s|
  {
    if s != [] {
      NonSpacesEmpty(s[1..]);
    }
  }

  /** `Array.prototype.join`: the items in order, with `separator` between neighbours. */
  function Join(items: seq<JsString>, separator: JsString): (r: JsString)
    ensures items == [] ==> r == []
    ensures |items| > 0 ==> IsPrefix(items[0], r)
    // Every item is kept and every gap gets one separator.
    ensures |items| > 0 ==> |r| == TotalLength(items) + (|items| - 1) * |separator|
    decreases |items|
  {
    if items == [] then []
    else if |items| == 1 then items[0]
    else items[0] + separator + Join(items[1..], separator)
  }

  function TotalLength(items: seq<JsString>): nat
    decreases |items|
  {
    if items == [] then 0 else |items[0]| + TotalLength(items[1..])
  }

  /** Joining one more item appends a separator and that item. */
  lemma {:induction false} JoinSnoc(items: seq<JsString>, x: JsString, separator: JsString)
    requires items != []
    ensures Join(items + [x], separator) == Join(items, separator) + separator + x
    decreases |items|
  {
    var all := items + [x];
    if |items| == 1 {
      assert all[1..] == [x];
    } else {
      assert all[1..] == items[1..] + [x];
      JoinSnoc(items[1..], x, separator);
    }
  }

  /** Growing the first item at its front grows the joined text the same way. */
  lemma JoinConsHead(c: CodeUnit, ws: seq<JsString>, separator: JsString)
    requires ws != []
    ensures Join([[c] + ws[0]] + ws[1..], separator) == [c] + Join(ws, separator)
  {
    var items := [[c] + ws[0]] + ws[1..];
    assert items[1..] == ws[1..];
  }

  /** The words of `s`: its maximal runs of non-whitespace units, in order. A unit that
      is not whitespace either starts a new word or, when the next unit is not
      whitespace either, is the front of the word that continues there. */
  function Words(s: JsString): (ws: seq<JsString>)
    ensures forall k :: 0 <= k < |ws| ==> ws[k] != []
    ensures s != [] && !IsSpace(s[0]) ==> ws != [] && ws[0][0] == s[0]
    decreases |s|
  {
    if s == [] then []
    else if IsSpace(s[0]) then Words(s[1..])
    else
      var rest := Words(s[1..]);
      if |s| > 1 && !IsSpace(s[1]) then [[s[0]] + rest[0]] + rest[1..]
      else [[s[0]]] + rest
  }

  /** Leading whitespace separates no words. */
  lemma {:induction false} WordsAfterSpaces(p: JsString, x: JsString)
    requires AllSpaces(p)
    ensures Words(p + x) == Words(x)
    decreases |p|
  {
    if p == [] {
      assert p + x == x;
    } else {
      assert (p + x)[1..] == p[1..] + x;
      WordsAfterSpaces(p[1..], x);
    }
  }

  /** Trailing whitespace separates no words. */
  lemma {:induction false} WordsBeforeSpaces(y: JsString, p: JsString)
    requires AllSpaces(p)
    ensures Words(y + p) == Words(y)
    decreases |y|
  {
    if y == [] {
      assert y + p == p + [];
      WordsAfterSpaces(p, []);
    } else {
      assert (y + p)[0] == y[0];
      assert (y + p)[1..] == y[1..] + p;
      WordsBeforeSpaces(y[1..], p);
      if |y| > 1 {
        assert (y + p)[1] == y[1];
      }
    }
  }

  /** Collapsing whitespace runs keeps the words. */
  lemma {:induction false} WordsOfCollapse(s: JsString)
    ensures Words(Collapse(s)) == Words(s)
    decreases |s|
  {
    if s != [] {
      if IsSpace(s[0]) {
        var t := TrimStart(s);
        assert t == TrimStart(s[1..]);
        WordsOfCollapse(t);
        CollapseOfSpace(s);
        WordsAfterOneSpace(Collapse(s), Collapse(t));
        WordsOfTrimStart(s);
      } else {
        WordsOfCollapse(s[1..]);
        CollapseWordUnit(s);
      }
    }
  }

  lemma WordsAfterOneSpace(x: JsString, c: JsString)
    requires x == [SPACE] + c
    ensures Words(x) == Words(c)
  {
    WordsAfterSpaces([SPACE], c);
  }

  lemma CollapseOfSpace(s: JsString)
    requires s != [] && IsSpace(s[0])
    ensures Collapse(s) == [SPACE] + Collapse(TrimStart(s))
  {
  }

  lemma CollapseWordUnit(s: JsString)
    requires s != [] && !IsSpace(s[0])
    requires Words(Collapse(s[1..])) == Words(s[1..])
    ensures Words(Collapse(s)) == Words(s)
  {
    var c := Collapse(s[1..]);
    var r := [s[0]] + c;
    assert Collapse(s) == r;
    assert r[1..] == c;
    if |s| > 1 {
      assert s[1..][0] == s[1];
    }
    if c != [] {
      assert r[1] == c[0];
    }
  }

  /** Trimming keeps the words. */
  lemma WordsOfTrim(s: JsString)
    ensures Words(Trim(s)) == Words(s)
  {
    var t := TrimStart(s);
    WordsOfTrimStart(s);
    WordsOfTrimEnd(t);
  }

  lemma WordsOfTrimStart(s: JsString)
    ensures Words(TrimStart(s)) == Words(s)
  {
    var t := TrimStart(s);
    assert s == s[..|s| - |t|] + t;
    WordsAfterSpaces(s[..|s| - |t|], t);
  }

  lemma WordsOfTrimEnd(t: JsString)
    ensures Words(TrimEnd(t)) == Words(t)
  {
    var r := TrimEnd(t);
    assert t == r + t[|r|..];
    WordsBeforeSpaces(r, t[|r|..]);
  }

  /** A single-spaced text without whitespace at its ends is its words joined by spaces. */
  lemma {:induction false} SpacedIsJoinedWords(r: JsString)
    requires SingleSpaced(r)
    requires r == [] || (!IsSpace(r[0]) && !IsSpace(r[|r| - 1]))
    ensures Join(Words(r), [SPACE]) == r
    decreases |r|
  {
    if r != [] {
      var rest := r[1..];
      if rest == [] {
        assert Words(r) == [[r[0]]];
      } else if !IsSpace(rest[0]) {
        assert SingleSpaced(rest) by {
          assert forall i :: 0 <= i < |rest| ==> rest[i] == r[i + 1];
        }
        SpacedIsJoinedWords(rest);
        assert Words(r) == [[r[0]] + Words(rest)[0]] + Words(rest)[1..];
        JoinConsHead(r[0], Words(rest), [SPACE]);
      } else {
        var rest2 := r[2..];
        assert rest2 == rest[1..];
        assert SingleSpaced(rest2) by {
          assert forall i :: 0 <= i < |rest2| ==> rest2[i] == r[i + 2];
        }
        SpacedIsJoinedWords(rest2);
        assert Words(rest) == Words(rest2);
        var ws := Words(rest2);
        assert Words(r) == [[r[0]]] + ws;
        assert ([[r[0]]] + ws)[1..] == ws;
        assert r == [r[0]] + [SPACE] + rest2;
      }
    }
  }

  /** The relay's normalisation is exactly the words of the text joined by single spaces:
      each whitespace run between words becomes one space, and the runs at the ends go. */
  lemma NormalizeJoinsWords(s: JsString)
    ensures Normalize(s) == Join(Words(s), [SPACE])
  {
    var n := Normalize(s);
    assert Words(n) == Words(s) by {
      var c := Collapse(s);
      assert n == Trim(c);
      WordsOfCollapse(s);
      WordsOfTrim(c);
    }
    SpacedIsJoinedWords(n);
  }
}

=== FILE: language.dfy ===
/** `isEnglish`: the language-purity test the relay applies to a rewritten body. */
module Language {
  import opened JsText

  /** The units the character class `[0-9\s\-_,.]` matches, which are deleted before the test. */
  predicate Ignored(c: CodeUnit) {
    (0x30 <= c <= 0x39) || IsSpace(c) || c == 0x2D || c == 0x5F || c == 0x2C || c == 0x2E
  }

  /** `text.replace(/[0-9\s\-_,.]/g, "")`. */
  function Strip(s: JsString): (r: JsString)
    ensures forall i :: 0 <= i < |r| ==> !Ignored(r[i])
    // A single unit is deleted exactly when the class matches it.
    ensures |s| == 1 ==> r == if Ignored(s[0]) then [] else s
    decreases |s|
  {
    if s == [] then []
    else (if Ignored(s[0]) then [] else [s[0]]) + Strip(s[1..])
  }

  /** The deletion works unit by unit: every unit outside the class survives, in order. */
  lemma {:induction false} StripAppend(a: JsString, b: JsString)
    ensures Strip(a + b) == Strip(a) + Strip(b)
    decreases |a|
  {
    if a == [] {
      assert a + b == b;
    } else {
      assert (a + b)[0] == a[0];
      assert (a + b)[1..] == a[1..] + b;
      StripAppend(a[1..], b);
    }
  }

  /** `/^[\x00-\x7F]*$/`: every code unit is ASCII. */
  predicate IsAscii(s: JsString) {
    forall i :: 0 <= i < |s| ==> s[i] <= 0x7F
  }

  function IsEnglish(text: JsString): bool {
    IsAscii(Strip(text))
  }

  /** A text counts as English exactly when each of its units is either deleted by the
      cleaning step or ASCII; so one non-ASCII unit outside that class makes it non-English. */
  lemma {:induction false} IsEnglishIff(text: JsString)
    ensures IsEnglish(text) <==> forall i :: 0 <= i < |text| ==> Ignored(text[i]) || text[i] <= 0x7F
    decreases |text|
  {
    if text != [] {
      IsEnglishIff(text[1..]);
      var head := if Ignored(text[0]) then [] else [text[0]];
      var r := head + Strip(text[1..]);
      assert Strip(text) == r;
      assert IsAscii(r) <==> IsAscii(head) && IsAscii(Strip(text[1..])) by {
        assert forall i :: 0 <= i < |Strip(text[1..])| ==> r[|head| + i] == Strip(text[1..])[i];
      }
      assert forall i :: 1 <= i < |text| ==> text[i] == text[1..][i - 1];
    }
  }

  /** Empty and whitespace-only bodies count as English, so the relay rejects them. */
  lemma BlankIsEnglish(text: JsString)
    requires AllSpaces(text)
    ensures IsEnglish(text)
  {
    IsEnglishIff(text);
  }

  /** A single unit beyond ASCII that the cleaning keeps (any Bengali letter, say) makes
      the text non-English, wherever it stands. */
  lemma WitnessNotEnglish(text: JsString, k: nat)
    requires k < |text| && !Ignored(text[k]) && text[k] > 0x7F
    ensures !IsEnglish(text)
  {
    IsEnglishIff(text);
  }
}

=== FILE: numbers.dfy ===
/** `String(t)` for the integral numbers the relay turns into text (timestamps). */
module NumberText {
  import opened JsText

  /** The largest magnitude of an ECMAScript time value (milliseconds from the epoch),
      and so of any value `Date.now()` can return. */
  const MAX_TIME_VALUE: int := 8_640_000_000_000_000

  predicate IsTimeValue(t: int) {
    -MAX_TIME_VALUE <= t <= MAX_TIME_VALUE
  }

  const MINUS: CodeUnit := 0x2D

  predicate IsDigit(c: CodeUnit) {
    0x30 <= c <= 0x39
  }

  predicate AllDigits(s: JsString) {
    forall i :: 0 <= i < |s| ==> IsDigit(s[i])
  }

  /** The decimal digits of `n`, most significant first, without leading zeros. */
  function Decimal(n: nat): (r: JsString)
    ensures r != [] && AllDigits(r)
    ensures r[0] == 0x30 ==> n == 0 && r == [0x30]
    decreases n
  {
    if n < 10 then [(0x30 + n) as CodeUnit]
    else Decimal(n / 10) + [(0x30 + n % 10) as CodeUnit]
  }

  /** The value a string of decimal digits denotes: the inverse of `Decimal`. */
  function DigitsValue(s: JsString): nat
    requires AllDigits(s)
    decreases |s|
  {
    if s == [] then 0
    else DigitsValue(s[..|s| - 1]) * 10 + (s[|s| - 1] as int - 0x30)
  }

  lemma {:induction false} DecimalRoundTrip(n: nat)
    ensures DigitsValue(Decimal(n)) == n
    decreases n
  {
    if n >= 10 {
      var d := Decimal(n / 10);
      var r := d + [(0x30 + n % 10) as CodeUnit];
      assert r[..|r| - 1] == d;
      DecimalRoundTrip(n / 10);
    }
  }

  /** `String(t)` for an integral time value: an optional minus sign, then the digits.
      (Magnitudes below 10^21, where JavaScript switches to exponent notation.) */
  function NumberToString(t: int): (r: JsString)
    requires IsTimeValue(t)
    ensures r != []
    ensures r[0] == MINUS <==> t < 0
    ensures t >= 0 ==> AllDigits(r) && DigitsValue(r) == t
    ensures t < 0 ==> AllDigits(r[1..]) && DigitsValue(r[1..]) == -t
    // The digits are canonical: no leading zero, and zero itself is "0", never "-0".
    ensures t >= 0 && r[0] == 0x30 ==> r == [0x30]
    ensures t < 0 ==> |r| > 1 && r[1] != 0x30
  {
    if t < 0 then
      var d := Decimal(-t);
      DecimalRoundTrip(-t);
      assert ([MINUS] + d)[1..] == d;
      [MINUS] + d
    else
      DecimalRoundTrip(t);
      Decimal(t)
  }

  /** Different time values print differently. */
  lemma NumberToStringInjective(a: int, b: int)
    requires IsTimeValue(a) && IsTimeValue(b)
    requires NumberToString(a) == NumberToString(b)
    ensures a == b
  {
  }
}

=== FILE: providers.dfy ===
/** `geminiRewrite`, `openRouterRewrite` and `generateSEO`: the rewrite providers and the
    fixed-priority chain that falls back to `fallbackSEO`. */
module Providers {
  import opened JsText
  import opened Results
  import opened NumberText
  import opened Records
  import opened Language
  import opened JsonExtract
  import opened Fallback

  datatype Provider = Gemini | OpenRouter

  /** What a provider's HTTP exchange yields, once its response shape is unwrapped:
      - `Unreachable`: the request, the body decoding, or the unwrapping threw;
      - `NoCandidates`: the reply lists no candidates/choices;
      - `Reply`: the completion text, which need not be a string. */
  datatype Completion = Unreachable | NoCandidates | Reply(text: JsValue)

  /** The outcome of one `...Rewrite` call, as `generateSEO` sees it. */
  datatype Outcome = Throws | Null | Obj(obj: SeoObject)

  /** The tail of both rewrite adapters: `null` without candidates, otherwise
      `extractJSON` on the completion text (`.match` throws on a non-string). */
  function RewriteOutcome(c: Completion, parse: JsString -> Result<SeoObject, JsString>): (o: Outcome)
    ensures o == Null <==> c == NoCandidates
    ensures o.Obj? ==>
      c.Reply? && c.text.Str? && HasBracePair(c.text.s) && Ok(o.obj) == ExtractJSON(c.text.s, parse)
    ensures c.Reply? && c.text.Str? && !HasBracePair(c.text.s) ==> o == Throws
    // A failed request, or a completion that is not a string, throws.
    ensures c == Unreachable || (c.Reply? && !c.text.Str?) ==> o == Throws
    // A string completion yields exactly the object `extractJSON` parses from it.
    ensures c.Reply? && c.text.Str? ==>
      forall x :: o == Obj(x) <==> ExtractJSON(c.text.s, parse) == Ok(x)
  {
    match c
    case Unreachable => Throws
    case NoCandidates => Null
    case Reply(text) =>
      if !text.Str? then Throws
      else match ExtractJSON(text.s, parse)
        case Ok(obj) => Obj(obj)
        case Err(_) => Throws
  }

  /** `if (g && !isEnglish(g.content)) return g;` inside its `try`: an object is taken only
      when its `content` is a string (otherwise `.replace` throws and the `catch` skips the
      provider) that is not English. */
  predicate Accepted(o: Outcome) {
    o.Obj? && o.obj.content.Str? && !IsEnglish(o.obj.content.s)
  }

  /** The first acceptable outcome in priority order. */
  function FirstAccepted(outcomes: seq<Outcome>): (r: Option<nat>)
    ensures r.Some? ==>
      r.value < |outcomes| && Accepted(outcomes[r.value]) && forall k :: 0 <= k < r.value ==> !Accepted(outcomes[k])
    ensures r.None? ==> forall k :: 0 <= k < |outcomes| ==> !Accepted(outcomes[k])
    decreases |outcomes|
  {
    if outcomes == [] then None
    else if Accepted(outcomes[0]) then Some(0)
    else match FirstAccepted(outcomes[1..])
      case None => None
      case Some(k) => Some(k + 1)
  }

  const PRIORITY: seq<Provider> := [Gemini, OpenRouter]

  /** The object `generateSEO` resolves to, and the providers it called, in order. */
  datatype Generation = Generation(seo: SeoObject, calls: seq<Provider>)

  /** `generateSEO(newsText)` given what each provider would yield and the clock value. */
  function GenerateSEO(newsText: JsString, now: int, gemini: Outcome, openRouter: Outcome): (g: Generation)
    requires IsTimeValue(now)
    // Gemini wins when acceptable, and OpenRouter is then never called.
    ensures Accepted(gemini) ==> g.seo == gemini.obj && g.calls == [Gemini]
    // Otherwise OpenRouter is tried under the same rule.
    ensures !Accepted(gemini) && Accepted(openRouter) ==>
      g.seo == openRouter.obj && g.calls == [Gemini, OpenRouter]
    // When neither is acceptable, the result is exactly the fallback article.
    ensures !Accepted(gemini) && !Accepted(openRouter) ==>
      g.seo == AsObject(FallbackSEO(newsText, now)) && g.calls == [Gemini, OpenRouter]
    ensures |g.calls| > 0 && g.calls[0] == Gemini
  {
    var outcomes := [gemini, openRouter];
    match FirstAccepted(outcomes)
    case Some(k) => Generation(outcomes[k].obj, PRIORITY[..k + 1])
    case None =>
      assert !Accepted(outcomes[0]) && !Accepted(outcomes[1]);
      Generation(AsObject(FallbackSEO(newsText, now)), PRIORITY)
  }

  /** Whatever the providers do, `generateSEO` resolves to an object whose `content` is a
      non-English string: an accepted provider object, or the fallback article, whose
      body ends in the Bengali disclaimer. */
  lemma GeneratedContentIsBengali(newsText: JsString, now: int, gemini: Outcome, openRouter: Outcome)
    requires IsTimeValue(now)
    ensures var g := GenerateSEO(newsText, now, gemini, openRouter);
      g.seo.content.Str? && !IsEnglish(g.seo.content.s)
  {
    if !Accepted(gemini) && !Accepted(openRouter) {
      DisclaimerMakesBengali(Normalize(newsText));
    }
  }

  /** Any text followed by the disclaimer is non-English: the disclaimer's third unit is
      the Bengali letter U+0989. */
  lemma DisclaimerMakesBengali(clean: JsString)
    ensures !IsEnglish(clean + DISCLAIMER)
  {
    var body := clean + DISCLAIMER;
    assert DISCLAIMER[2] == 0x0989;
    assert body[|clean| + 2] == DISCLAIMER[2];
    WitnessNotEnglish(body, |clean| + 2);
  }
}

=== FILE: records.dfy ===
/** The article objects that flow from the rewrite step to WordPress. */
module Records {
  import opened JsText

  /** A JSON value as far as the relay looks at it: a string, a missing property, or any
      other value, which carries the text JavaScript's string conversion gives it
      (`"null"`, `"42"`, `"[object Object]"`, ...). */
  datatype JsValue = Str(s: JsString) | Undefined | NonString(shown: JsString)

  /** The `meta_keywords` property: an array (given by its elements' texts) or anything
      else, on which `.join` is not a function. */
  datatype Keywords = KeywordArray(items: seq<JsString>) | NotAnArray

  /** The object `generateSEO` hands on: either a provider's parsed JSON object, whose
      properties may be missing or of any type, or the fallback article. */
  datatype SeoObject = SeoObject(
    title: JsValue,
    content: JsValue,
    metaTitle: JsValue,
    metaDescription: JsValue,
    metaKeywords: Keywords,
    slug: JsValue,
    excerpt: JsValue)

  /** An article whose every field is a string: what the fallback generator builds. */
  datatype Article = Article(
    title: JsString,
    content: JsString,
    metaTitle: JsString,
    metaDescription: JsString,
    metaKeywords: seq<JsString>,
    slug: JsString,
    excerpt: JsString)

  function AsObject(a: Article): (o: SeoObject)
    ensures o.title.Str? && o.content.Str? && o.metaKeywords.KeywordArray?
  {
    SeoObject(Str(a.title), Str(a.content), Str(a.metaTitle), Str(a.metaDescription),
              KeywordArray(a.metaKeywords), Str(a.slug), Str(a.excerpt))
  }

  /** `String(v)`, as the `+` operator applies it. */
  function ToText(v: JsValue): JsString {
    match v
    case Str(s) => s
    case Undefined => Lit("undefined")
    case NonString(shown) => shown
  }
}

=== FILE: results.dfy ===
/** Failure-carrying wrappers shared by the whole model. */
module Results {

  /** A value that may be absent (JavaScript `undefined`/`null`, a missing match, ...). */
  datatype Option<+T> = None | Some(value: T)

  /** The outcome of an operation that may throw: `Err` carries the thrown error's message. */
  datatype Result<+T, +E> = Ok(value: T) | Err(error: E)
}
